=== FILE: README.md ===
# Chat widget core, modelled in Dafny

This project models the browser chat widget in `script.js`. The widget keeps
several independent chat sessions in a history map, saved in the browser's
local storage. It restores the most recently updated session when the page
loads. It is meant to title a session after the user's first message, but as
written its gate never opens on a chat it created itself (see "## Findings"). It sends each
message to a remote endpoint and turns the endpoint's reply, whatever its
shape, into one bot message.

The modules follow the parts of the script:

- `Json` is the decoded JSON value. It covers JavaScript truthiness, property
  access, `x || fallback` and `String(x)`. `String(x)` is modelled for values
  in which no object has its own `toString` key.
- `Text` covers `trim`, `toString` on the id counter and `parseInt(key, 10)`,
  with JavaScript's whitespace set and sign and digit-prefix rules.
- `ChatTypes` holds the message and session records.
- `MessageOrder` is the stable sort by timestamp applied when history is loaded.
- `Normalizer` covers the ordered response fallback, the acceptance test and
  the bot message built from an accepted reply.
- `Render` is the type dispatch of `addMessageToUI`: a text bubble, an empty
  placeholder, a chart or an unsupported-type bubble.
- `Titles` covers title derivation and the gate that triggers it: `AsWritten`
  is the script's gate and `Corrected` the one its comments describe.
- `Sessions` holds the pure effects on sessions: the new session, the append,
  the re-sort, and the invariant that keeps timestamps in order.
- `History` holds the class `ChatStore`. Its fields `chatHistory`,
  `currentChatId` and `nextChatId` are the widget's three pieces of state.
  Its methods are `startNewChat`, `saveMessageToHistory`, `updateChatTitle`,
  the post-parse part of `loadChatHistory`, the selection and fallback of
  `loadChat`, the start-up sequence and the sidebar order.
- `Conversation` is the send cycle of `handleSendMessage`. It has two steps:
  appending the user's message when it is sent, and appending the reply when
  the request settles. The outcome of the request is an abstract value. The
  retitling gate is a parameter: with `AsWritten` the cycle is the script's,
  with `Corrected` it is the repaired one.

Clock readings (`Date.now()`) are parameters. A timestamp, `lastUpdated` or
`createdAt` that is absent from a stored record is represented by 0. Every
read of those fields in the script (`x || 0`, `!x`) treats an absent field
and 0 alike.

## Model

| member | source | states |
|---|---|---|
| Json.Truthy | script.js:133 | a JSON value is falsy exactly when it is null, false, 0 or the empty string |
| Json.Display | script.js:239 | `String(v)`: a string shows as itself, an object as "[object Object]", and `parseInt` of a number's text gives the number back |
| Json.Or | script.js:136-138 | `v.key \|\| fallback` is the property when it is truthy, and exactly the fallback when it is falsy or absent |
| Text.Trim | script.js:66 | the result is the part of the input that follows its leading whitespace, only whitespace comes after it in the input, and it is empty or starts and ends with a non-space |
| Text.TrimIdempotent | script.js:66 | trimming twice gives the same result as trimming once |
| Text.NatToString | script.js:366 | the counter's decimal form is a non-empty digit string with no leading zero |
| Text.ParseInt | script.js:305 | `parseInt(s, 10)`: the empty string gives NaN; a string that starts with a digit gives the value of its leading digit run; one that starts with anything but whitespace, a sign or a digit gives NaN |
| Text.ParseIntOfNatToString | script.js:305 | `parseInt` of a generated id gives back the number it was made from |
| MessageOrder.SortByTimestamp | script.js:296 | the re-sorted messages are in ascending timestamp order and are a permutation of the stored ones |
| MessageOrder.SortIsStable | script.js:296 | messages with equal timestamps keep their stored relative order |
| MessageOrder.SortKeepsSortedInput | script.js:296 | messages already in timestamp order come back unchanged |
| Normalizer.Normalize | script.js:117-130 | any shape the fallback produces is an object |
| Normalizer.NormalizeOrder | script.js:117-130 | the five branches are tried in order and the first that matches wins; no shape results exactly when none matches |
| Normalizer.AcceptedCases | script.js:117-133 | a reply is accepted exactly in four cases: the body carries content or config; its `output` object does; its `output` is a non-empty string; or it is a non-empty string |
| Normalizer.FirstMatchWins | script.js:118-133 | a body with a truthy `type` but no content or config is rejected, whatever its `output` holds |
| Normalizer.NormalizeIdempotent | script.js:117-130 | normalising a normalised shape returns that same shape |
| Normalizer.Accepted | script.js:133 | an accepted body is truthy; a string body is accepted exactly when it is non-empty; a body with truthy content or config is always accepted |
| Normalizer.BotMessage | script.js:134-140 | the bot message keeps the shape's truthy content, type and config; otherwise `type` defaults to 'text' and content and config to null, and at least one of content and config is truthy |
| Normalizer.ReplyToData | script.js:133-157 | an accepted body becomes its bot message; any other body becomes the fixed unexpected-format notice; either way the message has something to show |
| Normalizer.ChartReply | script.js:118-140 | `{type: 'chart', config}` becomes a chart message with null content |
| Normalizer.OutputStringReply | script.js:124-140 | `{output: s}` with a non-empty `s` becomes the text message `s` |
| Normalizer.PlainStringReply | script.js:127-140 | a non-empty string body becomes the text message holding it |
| Normalizer.EmptyObjectRejected | script.js:117-157 | `{}` yields no shape and produces the unexpected-format notice |
| Render.RenderMessage | script.js:181-241 | a 'text' message with truthy content is a text bubble showing it; a 'text' message with falsy content is the placeholder, whose text is chosen by sender; a chart is shown exactly for a 'chart' message with a truthy config, captioned by truthy content; every other type is the unsupported bubble, showing the content or else the type |
| Render.RenderSession | script.js:416-421 | replaying a session gives one bubble per stored message, in order |
| Render.TextMessageShowsText | script.js:181-184 | a text message with non-empty text shows that text |
| Render.UntypedChartShowsPlaceholder | script.js:133-187 | the reply body `{config}` with no `type` and no content becomes a 'text' bot message and shows the bot's empty placeholder instead of a chart |
| Titles.DeriveTitle | script.js:350-357 | the title is the trimmed text cut to 35 characters, with "..." exactly when something was cut (so at most 38 characters); an empty trimmed text gives "Chat <id>" |
| Titles.DeriveTitleOfTrimmed | script.js:66 | deriving the title from the already trimmed input gives the same title as from the raw input |
| Sessions.NewSession | script.js:369-387 | the new session has the default title, `createdAt` equal to `now`, and exactly one message, the bot's text greeting stamped `now+1`; its `lastUpdated` is `now+1`; its timestamps are in order |
| Sessions.Stamped | script.js:332-334 | a message without a timestamp gets exactly the clock reading and nothing else changes; a message with one is left as it is |
| Sessions.Appended | script.js:335-337 | exactly one message is added at the end, earlier messages are unchanged, and `lastUpdated` becomes the new message's timestamp |
| Sessions.WithMessage | script.js:329-343 | the append changes only the named session; an unknown id leaves the whole map unchanged |
| Sessions.AppendKeepsWellStamped | script.js:329-338 | appending a message stamped no earlier than the last update keeps the session's timestamps in order |
| Sessions.Resorted | script.js:294-301 | only the messages of a loaded session change, and they become a sorted permutation |
| Sessions.LoadedSessions | script.js:288-321 | a parsed history keeps its keys with every session re-sorted; missing or unparsable storage gives the empty map |
| Sessions.FreshId | script.js:304-308 | when every numeric key is below the counter, no id the counter hands out from then on is already used |
| History.ResortAll | script.js:294-301 | the loop over all sessions yields the re-sorted history |
| History.NextId | script.js:304-308 | the counter becomes one more than the largest numeric key, or 1 when no key is positive |
| History.LoadSnapshot | script.js:288-321 | loading gives the re-sorted history and the counter derived from its keys |
| History.ChatStore.constructor | script.js:14-16 | the store starts empty, with no current chat and the counter at 1 |
| History.ChatStore.StartNewChat | script.js:365-392 | the counter's decimal form is a fresh key; it receives the new session and becomes the current chat; the counter goes up by one and no other session changes |
| History.ChatStore.SaveMessageToHistory | script.js:329-343 | the history becomes the one with the message appended to the named session |
| History.ChatStore.UpdateChatTitle | script.js:350-360 | only the named session's title changes, to the derived title; an unknown id changes nothing |
| History.ChatStore.LoadChatHistory | script.js:288-322 | the history becomes the loaded map, the counter is derived from its keys, and the store invariant holds |
| History.ChatStore.MostRecent | script.js:24-28 | the chosen key has a `lastUpdated` no other session exceeds; there is none exactly when the store is empty |
| History.ChatStore.SidebarOrder | script.js:437-441 | the sidebar lists every key exactly once, newest first by `lastUpdated`, falling back to `createdAt` |
| History.ChatStore.LoadChat | script.js:398-413 | an existing id becomes current; a missing id falls back to the most recently updated chat, or to a new chat when the store is empty; either way the current id is a key of the store |
| History.ChatStore.Initialize | script.js:19-30 | after start-up the current chat is a key with the latest `lastUpdated`; a non-empty load keeps the loaded history and the counter derived from its keys; an empty load leads to chat "1" with the counter at 2 |
| Conversation.ReplyMessage | script.js:133-166 | the message appended when a request settles is the bot reply for a body, or "Sorry, an error occurred: " followed by the error for a failure; it always has something to show |
| Conversation.FailureText | script.js:104-105 | a rejection's message is passed on; an HTTP failure's text starts with "HTTP error " followed by the status, which `parseInt` reads back, and ends with the body, or with the status text when the body is empty |
| Conversation.AfterReply | script.js:133-151 | settling appends exactly the reply message to the named chat and sets its last update to the settle time; other chats are unchanged; a reply that was not accepted never changes the title |
| Conversation.Exchange | script.js:65-168 | a whole exchange touches no chat but the named one, and on an unknown key changes nothing |
| Conversation.BeginSend | script.js:66-84 | an empty trimmed input or no active chat changes nothing and sends nothing; otherwise the trimmed text is appended as a user message and sent |
| Conversation.CompleteSend | script.js:111-167 | the reply is appended to the chat current at settle time; with an accepted reply the title is derived when the gate opens on the chat as it then stands (with `AsWritten`: at most two messages and the default title, as line 149) |
| Conversation.HandleSendMessage | script.js:65-168 | either nothing changes, or the current chat goes through exactly one exchange under the given gate |
| Conversation.NewChatThenSend | script.js:65-168 | with the script's gate, a chat made by `startNewChat` and then sent one message keeps its "Chat <id>" title; it holds three messages, or only the greeting when the input was blank |
| Conversation.ExchangeAppendsTwo | script.js:74-79 | one exchange appends exactly the user message and then the bot message, and leaves other chats, earlier messages, id and creation time unchanged |
| Conversation.ExchangeKeepsWellStamped | script.js:74-79 | when the clock does not run backwards, an exchange keeps the session's timestamps in order |
| Conversation.RetitleExactlyOnFirstExchange | script.js:146-151 | an exchange retitles exactly when the reply is accepted and the chat before it still had the default title and, with the script's gate, no message at all (with the corrected gate: no user message); otherwise the title is kept |
| Conversation.TitleSettlesAfterFirstExchange | script.js:146-151 | under either gate, after one exchange later exchanges never change the title again |
| Conversation.AsWrittenGateNeverOpensForNewChat | script.js:149 | with the script's gate, the first exchange on a chat made by `startNewChat` leaves three messages and the default title |
| Conversation.FirstExchangeRetitlesNewChat | script.js:146-151 | with the corrected gate, the first accepted exchange of a new chat titles it after the user's message |
| Conversation.FailureAppendsNotice | script.js:162-166 | a failed request appends exactly the prefixed error notice and keeps the title |
| Conversation.HttpErrorWithoutBody | script.js:102-105 | an HTTP failure with an empty body reports the status code and the status text |

## Left out

- The DOM is not modelled: bubble construction, the typing indicator, scrolling, textarea autosize and the sidebar's list items. `Render` keeps only the choice of bubble and its text.
- `fetch`, the promise chain and the request body (`chatInput`, `sessionId`) are not modelled; the request outcome is the abstract value `Conversation.Remote`.
- `localStorage` and `JSON.parse`/`JSON.stringify` are not modelled. What storage held is `Sessions.Snapshot`, which is either nothing, unparsable text or an already parsed map. Parsed text that is not a map of well-formed sessions (a bare number, a session without a `messages` array) is treated as unparsable. The persisting `saveChatHistory` call at the end of each operation is not modelled.
- Chart.js rendering inside `setTimeout`, and the `Math.random` canvas ids, are not modelled.
- `Date.now()` becomes parameters (`now`, `sentAt`, `settledAt`).
- Json.Display: a JSON object with its own `toString` key (or an array holding one) makes `String(v)` and `textContent = v` throw a TypeError. The model shows such a value as "[object Object]" instead.
- Render.RenderMessage: when the shown content or type is such a value, `addMessageToUI` throws at script.js:184, 203 or 239. The model renders the bubble instead. The same throw during the replay of `loadChat` is not modelled either.
- Conversation.ReplyMessage: an accepted reply whose shown content or type is such a value makes `addMessageToUI` throw at script.js:142, before the save at 144. The `catch` at 160-166 then appends the error notice, whose text is the engine's TypeError message. The model appends the bot reply instead.
- Overlapping sends are not modelled. `BeginSend` and `CompleteSend` are separate steps, and any store operation may run between them. `HandleSendMessage` covers the case where nothing does.
- Numbers are integers; floating point, `NaN` and precision loss are not modelled.
- Characters stand for UTF-16 code units. There is no Unicode normalisation.
- History.ChatStore.MostRecent: the order of `Object.keys` among sessions with equal `lastUpdated` is not modelled. The method may return any key with the largest value, where the script returns the first in key order.
- History.ChatStore.SidebarOrder: as for `MostRecent`, ties may come out in any order.
- History.ChatStore.LoadChat: the fallback for a missing id is stated to give a chat with the latest `lastUpdated`, not which one among ties.
- History.ChatStore.Initialize: after a non-empty load, the chat opened is stated to have the latest `lastUpdated`, not which one among ties.
- Stored messages without a `type` field are not modelled; `Message.kind` is always present.
- The sort in place of `loadChatHistory` is modelled as replacing each session's message sequence with the sorted one.
- The sidebar click handler (script.js:46-53) only guards a `loadChat` call and is not modelled separately.

## Findings

| source | as written | input that shows it | evidently intended | confidence | as-written member | corrected member |
|---|---|---|---|---|---|---|
| script.js:149 | the title is derived only when the chat holds at most two messages after the reply is saved | start a new chat, which seeds the greeting, then send "Tell me about sales" and receive `{content: "Sales are up 5%"}`: the chat then holds three messages, so the title stays "Chat 1" | the title is derived on the chat's first exchange, as the comment at script.js:146 says, whether or not a greeting was seeded | high (not executed) | Titles.EligibleAsWritten, Conversation.AsWrittenGateNeverOpensForNewChat, Conversation.NewChatThenSend | Titles.Eligible, Conversation.FirstExchangeRetitlesNewChat |

=== FILE: chat_types.dfy ===
/** The records the widget keeps in its history map: messages and chat
    sessions. Timestamps are millisecond clock readings; a timestamp field
    that is absent from a stored record is represented by 0, because every
    read of these fields in the widget (`x || 0`, `!x`) treats an absent
    field and 0 alike. */
module ChatTypes {
  import opened Json

  datatype Sender = User | Bot

  /** One chat message. `kind` is the record's `type` field ('text' or
      'chart' in practice, but a reply may carry any value there); `config`
      is the chart configuration, JNull when the record has none. */
  datatype Message = Message(sender: Sender, content: Json, kind: Json, config: Json, timestamp: int)

  /** One chat session, stored under its id in the history map. */
  datatype Session = Session(id: string, title: string, messages: seq<Message>, createdAt: int, lastUpdated: int)

  const TextKind: Json := JStr("text")

  const Greeting: string := "New chat started. How can I assist you?"

  /** The title a session carries until one is derived: `Chat <id>`. */
  function DefaultTitle(id: string): string {
    "Chat " + id
  }

  /** A plain-text message, as the widget builds for user input, the
      greeting and its error replies. */
  function TextMessage(sender: Sender, text: string, timestamp: int): Message {
    Message(sender, JStr(text), TextKind, JNull, timestamp)
  }
}

=== FILE: conversation.dfy ===
/** The send cycle of `handleSendMessage` (script.js:65-168) without its
    transport. Sending happens in two steps that a network round trip
    separates: the user's message is appended when the message is sent, and
    the bot's reply (or an error notice) when the request settles. What the
    endpoint did is an abstract `Remote` outcome. */
module Conversation {
  import opened Wrappers
  import opened Json
  import opened Text
  import opened ChatTypes
  import opened Normalizer
  import opened Titles
  import opened Sessions
  import opened History

  /** How the request settled: the promise chain was rejected with an error
      message (network failure, a body that is not JSON), the endpoint
      answered with a non-2xx status, or it answered with a decoded body. */
  datatype Remote =
    | Rejected(message: string)
    | HttpError(status: nat, body: string, statusText: string)
    | Received(data: Json)

  const ErrorPrefix: string := "Sorry, an error occurred: "
  const HttpErrorPrefix: string := "HTTP error "

  /** The message of the error the `catch` of script.js:162-167 receives. A
      failed status produces `HTTP error <status>: <body>`, with the status
      text standing in for an empty body. */
  function FailureText(r: Remote): (t: string)
    requires !r.Received?
    ensures r.Rejected? ==> t == r.message
    ensures r.HttpError? ==> && |t| > |HttpErrorPrefix| && t[..|HttpErrorPrefix|] == HttpErrorPrefix
                             && ParseInt(t[|HttpErrorPrefix|..]) == Some(r.status)
    ensures r.HttpError? && r.body != "" ==> |t| >= |r.body| && t[|t| - |r.body|..] == r.body
    ensures r.HttpError? && r.body == "" ==> |t| >= |r.statusText| && t[|t| - |r.statusText|..] == r.statusText
  {
    match r
    case Rejected(message) => message
    case HttpError(status, body, statusText) => HttpFailureText(status, if body != "" then body else statusText)
  }

  /** `HTTP error <status>: <shown>`. */
  function HttpFailureText(status: nat, shown: string): (t: string)
    ensures |t| > |HttpErrorPrefix| && t[..|HttpErrorPrefix|] == HttpErrorPrefix
    ensures ParseInt(t[|HttpErrorPrefix|..]) == Some(status)
    ensures |t| >= |shown| && t[|t| - |shown|..] == shown
  {
    var rest := ": " + shown;
    ParseIntOfNatToStringThen(status, rest);
    Framed(HttpErrorPrefix, NatToString(status), rest, shown);
    HttpErrorPrefix + NatToString(status) + rest
  }

  /** How a message built as `prefix + middle + rest` splits, where `rest`
      ends with `tail`. */
  lemma Framed(prefix: string, middle: string, rest: string, tail: string)
    requires |rest| >= |tail| && rest[|rest| - |tail|..] == tail
    ensures var t := prefix + middle + rest;
            && t[..|prefix|] == prefix && t[|prefix|..] == middle + rest
            && t[|t| - |tail|..] == tail
  {
    var t := prefix + middle + rest;
    assert t[|t| - |tail|..] == rest[|rest| - |tail|..];
  }

  /** The one bot message appended when the request settles at `now`: the
      reply built from a body (script.js:133-157), or the error notice of
      script.js:164-166. */
  function ReplyMessage(r: Remote, now: int): (m: Message)
    ensures m.sender == Bot && m.timestamp == now
    ensures Truthy(m.content) || Truthy(m.config)
    ensures r.Received? ==> m == ReplyToData(r.data, now)
    ensures !r.Received? ==> m == TextMessage(Bot, ErrorPrefix + FailureText(r), now)
  {
    match r
    case Received(data) => ReplyToData(data, now)
    case _ => TextMessage(Bot, ErrorPrefix + FailureText(r), now)
  }

  /** The history key `chatHistory[currentChatId]` reads: a null current id
      is converted to the property key "null". */
  function KeyOf(current: Option<string>): string {
    if current.Some? then current.value else "null"
  }

  /** The guard `!currentChatId` of script.js:68 fails: there is a current
      chat and its id is not the empty string. */
  predicate HasActiveChat(current: Option<string>) {
    current.Some? && current.value != ""
  }

  /** The user's message as script.js:74-79 saves it. */
  function UserMessage(text: string, now: int): Message {
    TextMessage(User, text, now)
  }

  /** The history after the request settled with `reply` at `now`, the
      current chat being stored under `key`: the reply is appended and, when
      the reply was accepted and `gate` opens on the chat as it now stands,
      the session is retitled after the user's `text` (script.js:133-151
      with `AsWritten`). */
  function AfterReply(gate: Gate, h: map<string, Session>, key: string, text: string, reply: Remote,
                      now: int): (r: map<string, Session>)
    ensures r.Keys == h.Keys
    ensures forall k | k in h && k != key :: r[k] == h[k]
    ensures key in h ==> && r[key].messages == h[key].messages + [ReplyMessage(reply, now)]
                         && r[key].lastUpdated == now
    ensures key in h && !(reply.Received? && Accepted(reply.data)) ==> r[key].title == h[key].title
  {
    var h1 := WithMessage(h, key, ReplyMessage(reply, now), now);
    if key in h1 then h1[key := Retitled(gate, h1[key], key, text, reply)] else h1
  }

  /** The saved session after the title check of script.js:146-151: only
      the title may change, and only to the one derived from `text`. */
  function Retitled(gate: Gate, s: Session, key: string, text: string, reply: Remote): (r: Session)
    ensures r == s.(title := r.title)
    ensures r.title == s.title || r.title == DeriveTitle(key, text)
  {
    if reply.Received? && Accepted(reply.data) && Opens(gate, s, key) then s.(title := DeriveTitle(key, text)) else s
  }

  /** A whole exchange on the session under `key`, sent at `sentAt` and
      settled at `settledAt` with no other operation in between. */
  function Exchange(gate: Gate, h: map<string, Session>, key: string, text: string, reply: Remote,
                    sentAt: int, settledAt: int): (r: map<string, Session>)
    ensures r.Keys == h.Keys
    ensures forall k | k in h && k != key :: r[k] == h[k]
    ensures key !in h ==> r == h
  {
    AfterReply(gate, WithMessage(h, key, UserMessage(text, sentAt), sentAt), key, text, reply, settledAt)
  }

  /** The send half (script.js:66-84): an empty trimmed input, or no active
      chat, changes nothing and sends nothing; otherwise the trimmed text is
      appended to the current chat as a user message and is what is sent. */
  method BeginSend(store: ChatStore, input: string, now: int) returns (sent: Option<string>)
    requires store.Valid()
    modifies store
    ensures store.Valid()
    ensures Trim(input) == [] || !HasActiveChat(old(store.currentChatId)) ==>
              sent == None && store.chatHistory == old(store.chatHistory)
    ensures Trim(input) != [] && HasActiveChat(old(store.currentChatId)) ==>
              && sent == Some(Trim(input))
              && store.chatHistory == WithMessage(old(store.chatHistory), old(store.currentChatId).value,
                                                  UserMessage(Trim(input), now), now)
    ensures store.currentChatId == old(store.currentChatId) && store.nextChatId == old(store.nextChatId)
  {
    var text := Trim(input);
    if text == [] || !HasActiveChat(store.currentChatId) {
      return None;
    }
    store.SaveMessageToHistory(store.currentChatId.value, UserMessage(text, now), now);
    sent := Some(text);
  }

  /** The settle half (script.js:111-167), under whichever chat is current
      when the request settles; the script's own gate is `AsWritten`. */
  method CompleteSend(store: ChatStore, text: string, reply: Remote, now: int, gate: Gate)
    requires store.Valid()
    modifies store
    ensures store.Valid()
    ensures store.chatHistory == AfterReply(gate, old(store.chatHistory), KeyOf(old(store.currentChatId)), text, reply, now)
    ensures store.currentChatId == old(store.currentChatId) && store.nextChatId == old(store.nextChatId)
  {
    var key := KeyOf(store.currentChatId);
    store.SaveMessageToHistory(key, ReplyMessage(reply, now), now);
    if reply.Received? && Accepted(reply.data) && key in store.chatHistory && Opens(gate, store.chatHistory[key], key) {
      store.UpdateChatTitle(key, text);
    }
  }

  /** `handleSendMessage` when nothing else happens while the request is in
      flight: either nothing changes, or the current chat goes through one
      whole exchange. */
  method HandleSendMessage(store: ChatStore, input: string, reply: Remote, sentAt: int, settledAt: int, gate: Gate)
    requires store.Valid()
    modifies store
    ensures store.Valid()
    ensures Trim(input) == [] || !HasActiveChat(old(store.currentChatId)) ==>
              store.chatHistory == old(store.chatHistory)
    ensures Trim(input) != [] && HasActiveChat(old(store.currentChatId)) ==>
              store.chatHistory == Exchange(gate, old(store.chatHistory), old(store.currentChatId).value,
                                            Trim(input), reply, sentAt, settledAt)
    ensures store.currentChatId == old(store.currentChatId) && store.nextChatId == old(store.nextChatId)
  {
    var sent := BeginSend(store, input, sentAt);
    if sent.Some? {
      CompleteSend(store, sent.value, reply, settledAt, gate);
    }
  }

  /** A new chat followed by one message with the script's gate: whatever
      the endpoint answers, the chat keeps its "Chat <id>" title; it holds
      the greeting, the user's message and the reply, or only the greeting
      when the input was blank. */
  method NewChatThenSend(store: ChatStore, input: string, reply: Remote, now: int, sentAt: int, settledAt: int)
    requires store.Valid()
    modifies store
    ensures store.Valid()
    ensures store.currentChatId == Some(NatToString(old(store.nextChatId)))
    ensures var id := store.currentChatId.value;
            && id in store.chatHistory
            && |store.chatHistory[id].messages| == (if Trim(input) == [] then 1 else 3)
            && store.chatHistory[id].title == DefaultTitle(id)
  {
    store.StartNewChat(now);
    var id := store.currentChatId.value;
    ghost var h := store.chatHistory;
    HandleSendMessage(store, input, reply, sentAt, settledAt, AsWritten);
    if Trim(input) != [] {
      AsWrittenGateNeverOpensForNewChat(h, id, now, Trim(input), reply, sentAt, settledAt);
    }
  }

  /** The number of user messages grows by one exactly when a user message
      is appended. */
  lemma {:induction false} UserCountAppend(ms: seq<Message>, m: Message)
    ensures UserCount(ms + [m]) == UserCount(ms) + (if m.sender == User then 1 else 0)
  {
    if ms != [] {
      assert (ms + [m])[1..] == ms[1..] + [m];
      UserCountAppend(ms[1..], m);
    }
  }

  /** An exchange on an existing chat appends exactly two messages, the
      user's and then the bot's, leaves every other chat as it was, and
      either keeps the title or replaces it with the one derived from the
      user's text. */
  lemma ExchangeAppendsTwo(gate: Gate, h: map<string, Session>, key: string, text: string, reply: Remote,
                           sentAt: int, settledAt: int)
    requires key in h
    ensures var r := Exchange(gate, h, key, text, reply, sentAt, settledAt);
            && r.Keys == h.Keys
            && (forall k | k in h && k != key :: r[k] == h[k])
            && r[key].messages == h[key].messages
                 + [Stamped(UserMessage(text, sentAt), sentAt), Stamped(ReplyMessage(reply, settledAt), settledAt)]
            && r[key].lastUpdated == settledAt
            && r[key].id == h[key].id && r[key].createdAt == h[key].createdAt
            && (r[key].title == h[key].title || r[key].title == DeriveTitle(key, text))
  {
    var h1 := WithMessage(h, key, UserMessage(text, sentAt), sentAt);
    var h2 := WithMessage(h1, key, ReplyMessage(reply, settledAt), settledAt);
    assert h2[key].messages == h1[key].messages + [Stamped(ReplyMessage(reply, settledAt), settledAt)];
  }

  /** An exchange keeps the session invariant when the clock does not run
      backwards between the last update, the send and the settle. */
  lemma ExchangeKeepsWellStamped(gate: Gate, h: map<string, Session>, key: string, text: string, reply: Remote,
                                 sentAt: int, settledAt: int)
    requires key in h && WellStamped(h[key])
    requires h[key].lastUpdated <= sentAt <= settledAt
    ensures WellStamped(Exchange(gate, h, key, text, reply, sentAt, settledAt)[key])
  {
    var h1 := WithMessage(h, key, UserMessage(text, sentAt), sentAt);
    var h2 := WithMessage(h1, key, ReplyMessage(reply, settledAt), settledAt);
    AppendKeepsWellStamped(h[key], UserMessage(text, sentAt), sentAt);
    AppendKeepsWellStamped(h1[key], ReplyMessage(reply, settledAt), settledAt);
    RetitledKeepsWellStamped(gate, h2[key], key, text, reply);
  }

  /** The title check does not touch what the session invariant is about. */
  lemma RetitledKeepsWellStamped(gate: Gate, s: Session, key: string, text: string, reply: Remote)
    requires WellStamped(s)
    ensures WellStamped(Retitled(gate, s, key, text, reply))
  {
    var r := Retitled(gate, s, key, text, reply);
    assert r.messages == s.messages && r.createdAt == s.createdAt && r.lastUpdated == s.lastUpdated;
  }

  /** What the chat must look like before an exchange for `gate` to open
      once the exchange's two messages are in: with the script's gate it
      must hold no message at all, with the corrected gate no user message;
      either way the title must still be the default. */
  predicate OpensOnNextExchange(gate: Gate, s: Session, key: string) {
    && s.title == DefaultTitle(key)
    && match gate
       case AsWritten => s.messages == []
       case Corrected => UserCount(s.messages) == 0
  }

  /** An exchange changes the title exactly when the reply was accepted and
      the gate opens on the chat the exchange leaves, which is decided by
      the chat before it; when it does, the title is derived from the
      user's text. */
  lemma RetitleExactlyOnFirstExchange(gate: Gate, h: map<string, Session>, key: string, text: string,
                                      reply: Remote, sentAt: int, settledAt: int)
    requires key in h
    ensures var s := h[key];
            var first := reply.Received? && Accepted(reply.data) && OpensOnNextExchange(gate, s, key);
            && (first ==> Exchange(gate, h, key, text, reply, sentAt, settledAt)[key].title == DeriveTitle(key, text))
            && (!first ==> Exchange(gate, h, key, text, reply, sentAt, settledAt)[key].title == s.title)
  {
    var s := h[key];
    var h1 := WithMessage(h, key, UserMessage(text, sentAt), sentAt);
    var h2 := WithMessage(h1, key, ReplyMessage(reply, settledAt), settledAt);
    UserCountAppend(s.messages, Stamped(UserMessage(text, sentAt), sentAt));
    UserCountAppend(h1[key].messages, Stamped(ReplyMessage(reply, settledAt), settledAt));
    GateAfterTwo(gate, s, h2[key], key);
    assert Exchange(gate, h, key, text, reply, sentAt, settledAt)[key] == Retitled(gate, h2[key], key, text, reply);
  }

  /** After an exchange has added the user's and the bot's message, whether
      the gate opens is decided by the chat as it was before. */
  lemma GateAfterTwo(gate: Gate, s: Session, s2: Session, key: string)
    requires s2.title == s.title && |s2.messages| == |s.messages| + 2
    requires UserCount(s2.messages) == UserCount(s.messages) + 1
    ensures Opens(gate, s2, key) <==> OpensOnNextExchange(gate, s, key)
  {
  }

  /** Once a chat has had an exchange, no later exchange changes its title,
      under either gate: the title is derived at most once. */
  lemma TitleSettlesAfterFirstExchange(gate: Gate, h: map<string, Session>, key: string,
                                       text1: string, reply1: Remote, sent1: int, settled1: int,
                                       text2: string, reply2: Remote, sent2: int, settled2: int)
    requires key in h
    ensures var h1 := Exchange(gate, h, key, text1, reply1, sent1, settled1);
            Exchange(gate, h1, key, text2, reply2, sent2, settled2)[key].title == h1[key].title
  {
    var h1 := Exchange(gate, h, key, text1, reply1, sent1, settled1);
    var user := Stamped(UserMessage(text1, sent1), sent1);
    var bot := Stamped(ReplyMessage(reply1, settled1), settled1);
    ExchangeAppendsTwo(gate, h, key, text1, reply1, sent1, settled1);
    assert h1[key].messages == (h[key].messages + [user]) + [bot];
    UserCountAppend(h[key].messages, user);
    UserCountAppend(h[key].messages + [user], bot);
    RetitleExactlyOnFirstExchange(gate, h1, key, text2, reply2, sent2, settled2);
  }

  /** The script's gate never opens on a chat that `startNewChat` created:
      by the time the reply is saved the chat holds the greeting, the
      user's message and the reply, so its first exchange leaves the
      default title in place. */
  lemma AsWrittenGateNeverOpensForNewChat(h: map<string, Session>, id: string, created: int, text: string,
                                          reply: Remote, sentAt: int, settledAt: int)
    requires id in h && h[id] == NewSession(id, created)
    ensures var r := Exchange(AsWritten, h, id, text, reply, sentAt, settledAt);
            |r[id].messages| == 3 && r[id].title == DefaultTitle(id)
  {
    ExchangeAppendsTwo(AsWritten, h, id, text, reply, sentAt, settledAt);
    RetitleExactlyOnFirstExchange(AsWritten, h, id, text, reply, sentAt, settledAt);
  }

  /** With the corrected gate, the first accepted exchange of a new chat
      titles it after the user's message. */
  lemma FirstExchangeRetitlesNewChat(h: map<string, Session>, id: string, created: int, text: string,
                                     data: Json, sentAt: int, settledAt: int)
    requires id in h && h[id] == NewSession(id, created)
    requires Accepted(data)
    ensures Exchange(Corrected, h, id, text, Received(data), sentAt, settledAt)[id].title == DeriveTitle(id, text)
  {
    assert UserCount(h[id].messages) == 0;
    RetitleExactlyOnFirstExchange(Corrected, h, id, text, Received(data), sentAt, settledAt);
  }

  /** A failed request appends the error notice, prefixed as in
      script.js:164, and never retitles. */
  lemma FailureAppendsNotice(gate: Gate, h: map<string, Session>, key: string, text: string, r: Remote, now: int)
    requires !r.Received? && key in h
    ensures AfterReply(gate, h, key, text, r, now)[key].messages
              == h[key].messages + [TextMessage(Bot, ErrorPrefix + FailureText(r), now)]
    ensures AfterReply(gate, h, key, text, r, now)[key].title == h[key].title
  {
  }

  /** An HTTP failure with an empty body reports the status text. */
  lemma HttpErrorWithoutBody(now: int)
    ensures ReplyMessage(HttpError(404, "", "Not Found"), now).content
              == JStr(ErrorPrefix + (HttpErrorPrefix + "404" + ": " + "Not Found"))
  {
    NotFoundFailure();
  }

  lemma NotFoundFailure()
    ensures FailureText(HttpError(404, "", "Not Found")) == HttpErrorPrefix + "404" + ": " + "Not Found"
  {
    assert FailureText(HttpError(404, "", "Not Found")) == HttpFailureText(404, "Not Found");
    Decimal404();
  }

  lemma Decimal404()
    ensures NatToString(404) == "404"
  {
    assert DigitChar(4) == '4' && DigitChar(0) == '0';
    assert NatToString(4) == "4";
    assert NatToString(40) == NatToString(4) + "0";
  }
}

=== FILE: history.dfy ===
/** The chat-history store: the three pieces of module state of script.js
    (lines 14-16) and the operations that change them. Clock readings are
    parameters; persisting to `localStorage` and redrawing the sidebar, which
    every operation ends with, are not modelled. */
module History {
  import opened Wrappers
  import opened Text
  import opened ChatTypes
  import opened MessageOrder
  import opened Titles
  import opened Sessions

  /** The sidebar's sort key (script.js:438-439): the last update, falling
      back to the creation time when the last update is absent. */
  function SidebarTime(s: Session): int {
    if s.lastUpdated != 0 then s.lastUpdated else s.createdAt
  }

  /** A finite non-empty set of keys has one whose sort key no other key's
      exceeds. */
  lemma {:induction false} LatestExists(h: map<string, Session>, keys: set<string>)
    requires keys != {} && keys <= h.Keys
    ensures exists k :: k in keys && forall j | j in keys :: SidebarTime(h[j]) <= SidebarTime(h[k])
    decreases keys
  {
    var x :| x in keys;
    if keys != {x} {
      LatestExists(h, keys - {x});
      var y :| y in keys - {x} && forall j | j in keys - {x} :: SidebarTime(h[j]) <= SidebarTime(h[y]);
      var k := if SidebarTime(h[x]) > SidebarTime(h[y]) then x else y;
      assert forall j | j in keys :: SidebarTime(h[j]) <= SidebarTime(h[k]);
    } else {
      assert forall j | j in keys :: j == x;
    }
  }

  /** `ids` lists keys of `h` newest first by sidebar time, and no key
      still `pending` is newer than any of them. */
  ghost predicate NewestFirst(h: map<string, Session>, ids: seq<string>, pending: set<string>)
    requires pending <= h.Keys && forall i :: 0 <= i < |ids| ==> ids[i] in h
  {
    && (forall i, j :: 0 <= i < j < |ids| ==> SidebarTime(h[ids[j]]) <= SidebarTime(h[ids[i]]))
    && (forall i, x :: 0 <= i < |ids| && x in pending ==> SidebarTime(h[x]) <= SidebarTime(h[ids[i]]))
  }

  /** Moving a newest pending key to the end of the list keeps the list
      newest first. */
  lemma PlaceNext(h: map<string, Session>, ids: seq<string>, pending: set<string>, k: string)
    requires pending <= h.Keys && k in pending && forall i :: 0 <= i < |ids| ==> ids[i] in h
    requires NewestFirst(h, ids, pending)
    requires forall x | x in pending :: SidebarTime(h[x]) <= SidebarTime(h[k])
    ensures NewestFirst(h, ids + [k], pending - {k})
  {
  }

  /** The `forEach` of script.js:294-301: every session with its messages
      re-sorted, under the same keys. */
  method ResortAll(sessions: map<string, Session>) returns (sorted: map<string, Session>)
    ensures sorted == LoadedSessions(Parsed(sessions))
  {
    var pending := sessions.Keys;
    sorted := map[];
    while pending != {}
      invariant pending <= sessions.Keys
      invariant sorted.Keys == sessions.Keys - pending
      invariant forall k | k in sorted :: sorted[k] == Resorted(sessions[k])
      decreases pending
    {
      var k :| k in pending;
      var chat := sessions[k];
      sorted := sorted[k := chat.(messages := SortByTimestamp(chat.messages))];
      pending := pending - {k};
    }
    ResortedEverywhere(sessions, sorted);
  }

  lemma ResortedEverywhere(sessions: map<string, Session>, sorted: map<string, Session>)
    requires sorted.Keys == sessions.Keys
    requires forall k | k in sorted :: sorted[k] == Resorted(sessions[k])
    ensures sorted == LoadedSessions(Parsed(sessions))
  {
  }

  /** The two values `loadChatHistory` computes from what storage held
      (script.js:288-316): the re-sorted history and the next id. */
  method LoadSnapshot(snap: Snapshot) returns (h: map<string, Session>, next: nat)
    ensures h == LoadedSessions(snap)
    ensures IsNextId(h.Keys, next)
  {
    if snap.Parsed? {
      h := ResortAll(snap.sessions);
    } else {
      h := map[];
    }
    next := NextId(h.Keys);
  }

  /** The id counter `loadChatHistory` derives from the loaded keys
      (script.js:304-308): one more than the largest `parseInt` value among
      them, or 1 when none is positive. */
  method NextId(keys: set<string>) returns (next: nat)
    ensures IsNextId(keys, next)
  {
    next := 1;
    ghost var maxKey: string := "";
    var pending := keys;
    while pending != {}
      invariant pending <= keys && next >= 1
      invariant forall k | k in keys && k !in pending :: IdBelow(k, next)
      invariant next == 1 || (maxKey in keys && ParseInt(maxKey) == Some(next - 1))
      decreases pending
    {
      var k :| k in pending;
      var id := ParseInt(k);
      if id.Some? && id.value >= next {
        RaiseBound(keys, pending, next, id.value + 1);
        next, maxKey := id.value + 1, k;
      }
      pending := pending - {k};
    }
  }

  /** A bound every numeric key is below stays one when it grows. */
  lemma RaiseBound(keys: set<string>, pending: set<string>, n: int, m: int)
    requires n <= m
    requires forall k | k in keys && k !in pending :: IdBelow(k, n)
    ensures forall k | k in keys && k !in pending :: IdBelow(k, m)
  {
  }

  class ChatStore {
    /** `chatHistory`: session id to session. */
    var chatHistory: map<string, Session>
    /** `currentChatId`; None is null. */
    var currentChatId: Option<string>
    /** `nextChatId`: the number the next new chat's id is made from. */
    var nextChatId: nat

    /** The store invariant: no numeric key has reached the id counter, so
        the id the counter hands out next is not in use. */
    ghost predicate Valid()
      reads this
    {
      forall k | k in chatHistory :: IdBelow(k, nextChatId)
    }

    /** The initial module state (script.js:14-16). */
    constructor ()
      ensures Valid()
      ensures chatHistory == map[] && currentChatId == None && nextChatId == 1
    {
      chatHistory := map[];
      currentChatId := None;
      nextChatId := 1;
    }

    /** `startNewChat` (script.js:365-392): the counter's value, in decimal,
        becomes the id of a fresh session that becomes the current chat; the
        counter moves on and no other session changes. */
    method StartNewChat(now: int)
      requires Valid()
      modifies this
      ensures Valid()
      ensures var id := NatToString(old(nextChatId));
              && id !in old(chatHistory)
              && chatHistory == old(chatHistory)[id := NewSession(id, now)]
              && currentChatId == Some(id)
      ensures nextChatId == old(nextChatId) + 1
    {
      var id := NatToString(nextChatId);
      FreshId(chatHistory, nextChatId);
      ParseIntOfNatToString(nextChatId);
      currentChatId := Some(id);
      nextChatId := nextChatId + 1;
      chatHistory := chatHistory[id := NewSession(id, now)];
    }

    /** `saveMessageToHistory` (script.js:329-343). */
    method SaveMessageToHistory(chatId: string, message: Message, now: int)
      requires Valid()
      modifies this
      ensures Valid()
      ensures chatHistory == WithMessage(old(chatHistory), chatId, message, now)
      ensures currentChatId == old(currentChatId) && nextChatId == old(nextChatId)
    {
      if chatId in chatHistory {
        var stamped := Stamped(message, now);
        var chat := chatHistory[chatId];
        chatHistory := chatHistory[chatId := chat.(messages := chat.messages + [stamped], lastUpdated := stamped.timestamp)];
      }
    }

    /** `updateChatTitle` (script.js:350-360): the session under `chatId`
        gets the title derived from `firstUserMessage`; an unknown id
        changes nothing. */
    method UpdateChatTitle(chatId: string, firstUserMessage: string)
      requires Valid()
      modifies this
      ensures Valid()
      ensures chatId in old(chatHistory) ==>
                chatHistory == old(chatHistory)[chatId := old(chatHistory)[chatId].(title := DeriveTitle(chatId, firstUserMessage))]
      ensures chatId !in old(chatHistory) ==> chatHistory == old(chatHistory)
      ensures currentChatId == old(currentChatId) && nextChatId == old(nextChatId)
    {
      if chatId in chatHistory {
        chatHistory := chatHistory[chatId := chatHistory[chatId].(title := DeriveTitle(chatId, firstUserMessage))];
      }
    }

    /** `loadChatHistory` after the storage read (script.js:288-322): every
        session's messages are re-sorted, and the counter becomes one more
        than the largest numeric key, or 1 when no key is positive. */
    method LoadChatHistory(snap: Snapshot)
      modifies this
      ensures Valid()
      ensures chatHistory == LoadedSessions(snap)
      ensures currentChatId == old(currentChatId)
      ensures IsNextId(chatHistory.Keys, nextChatId)
    {
      var h, next := LoadSnapshot(snap);
      chatHistory, nextChatId := h, next;
    }

    /** The most recently updated chat (script.js:24-28, 403): a key whose
        last update no other session's exceeds; None for an empty store. */
    method MostRecent() returns (latest: Option<string>)
      ensures latest.None? <==> chatHistory == map[]
      ensures latest.Some? ==> latest.value in chatHistory
      ensures latest.Some? ==> forall k | k in chatHistory ::
                chatHistory[k].lastUpdated <= chatHistory[latest.value].lastUpdated
    {
      latest := None;
      var pending := chatHistory.Keys;
      while pending != {}
        invariant pending <= chatHistory.Keys
        invariant latest.None? <==> pending == chatHistory.Keys
        invariant latest.Some? ==> latest.value in chatHistory && latest.value !in pending
        invariant latest.Some? ==> forall k | k in chatHistory && k !in pending ::
                    chatHistory[k].lastUpdated <= chatHistory[latest.value].lastUpdated
        decreases pending
      {
        var k :| k in pending;
        if latest.None? || chatHistory[k].lastUpdated > chatHistory[latest.value].lastUpdated {
          latest := Some(k);
        }
        pending := pending - {k};
      }
    }

    /** The sidebar order (script.js:437-441): every key exactly once, newest
        first by last update (creation time when absent). */
    method SidebarOrder() returns (ids: seq<string>)
      ensures forall i, j :: 0 <= i < j < |ids| ==> ids[i] != ids[j]
      ensures forall i :: 0 <= i < |ids| ==> ids[i] in chatHistory
      ensures forall k :: k in chatHistory ==> k in ids
      ensures forall i, j :: 0 <= i < j < |ids| ==>
                SidebarTime(chatHistory[ids[j]]) <= SidebarTime(chatHistory[ids[i]])
    {
      var h := chatHistory;
      ids := [];
      var pending := h.Keys;
      while pending != {}
        invariant pending <= h.Keys
        invariant forall i :: 0 <= i < |ids| ==> ids[i] in h && ids[i] !in pending
        invariant forall k :: k in h ==> k in pending || k in ids
        invariant forall i, j :: 0 <= i < j < |ids| ==> ids[i] != ids[j]
        invariant NewestFirst(h, ids, pending)
        decreases pending
      {
        LatestExists(h, pending);
        var k :| k in pending && forall j | j in pending :: SidebarTime(h[j]) <= SidebarTime(h[k]);
        PlaceNext(h, ids, pending, k);
        ids := ids + [k];
        pending := pending - {k};
      }
    }

    /** `loadChat` (script.js:398-428): an existing id becomes the current
        chat; a missing one falls back to the most recently updated chat, or
        to a new chat when the store is empty. Either way the current chat
        ends up a key of the store. */
    method LoadChat(chatId: string, now: int)
      requires Valid()
      modifies this
      ensures Valid()
      ensures currentChatId.Some? && currentChatId.value in chatHistory
      ensures chatId in old(chatHistory) ==>
                chatHistory == old(chatHistory) && nextChatId == old(nextChatId) && currentChatId == Some(chatId)
      ensures chatId !in old(chatHistory) && old(chatHistory) != map[] ==>
                && chatHistory == old(chatHistory) && nextChatId == old(nextChatId)
                && forall k | k in chatHistory ::
                     chatHistory[k].lastUpdated <= chatHistory[currentChatId.value].lastUpdated
      ensures old(chatHistory) == map[] ==>
                var id := NatToString(old(nextChatId));
                && chatHistory == map[id := NewSession(id, now)]
                && nextChatId == old(nextChatId) + 1
                && currentChatId == Some(id)
    {
      if chatId in chatHistory {
        currentChatId := Some(chatId);
      } else {
        var latest := MostRecent();
        if latest.Some? {
          currentChatId := latest;
        } else {
          StartNewChat(now);
        }
      }
    }

    /** The start-up sequence (script.js:19-30): load the stored history,
        then start a new chat when it is empty, or else open the most
        recently updated one. */
    method Initialize(snap: Snapshot, now: int)
      modifies this
      ensures Valid()
      ensures currentChatId.Some? && currentChatId.value in chatHistory
      ensures forall k | k in chatHistory ::
                chatHistory[k].lastUpdated <= chatHistory[currentChatId.value].lastUpdated
      ensures LoadedSessions(snap) != map[] ==>
                chatHistory == LoadedSessions(snap) && IsNextId(chatHistory.Keys, nextChatId)
      ensures LoadedSessions(snap) == map[] ==>
                chatHistory == map["1" := NewSession("1", now)] && nextChatId == 2
    {
      LoadChatHistory(snap);
      if chatHistory == map[] {
        assert nextChatId == 1;
        StartNewChat(now);
        assert NatToString(1) == "1";
      } else {
        var latest := MostRecent();
        LoadChat(latest.value, now);
      }
    }
  }
}

=== FILE: json.dfy ===
/** JSON values as the browser's JSON parser hands them to the widget, and the
    three JavaScript operations the widget applies to them: property access,
    truthiness and conversion to a display string. */
module Json {
  import opened Wrappers
  import Text

  /** A decoded JSON value. Numbers are integers: the widget only compares
      them with zero and prints them. */
  datatype Json =
    | JNull
    | JBool(b: bool)
    | JNum(n: int)
    | JStr(s: string)
    | JArr(items: seq<Json>)
    | JObj(fields: map<string, Json>)

  /** Property access `v.key`; None is `undefined`. Only objects have the
      named properties the widget reads. */
  function Get(v: Json, key: string): Option<Json> {
    if v.JObj? && key in v.fields then Some(v.fields[key]) else None
  }

  /** JavaScript's ToBoolean on a decoded value: null, false, 0 and the empty
      string are the only falsy JSON values. */
  predicate Truthy(v: Json)
    ensures !Truthy(v) <==> v in {JNull, JBool(false), JNum(0), JStr("")}
  {
    match v
    case JNull => false
    case JBool(b) => b
    case JNum(n) => n != 0
    case JStr(s) => s != ""
    case JArr(_) => true
    case JObj(_) => true
  }

  /** `v.key` is truthy (an undefined property is falsy). */
  predicate TruthyAt(v: Json, key: string) {
    Get(v, key).Some? && Truthy(Get(v, key).value)
  }

  /** `v.key || fallback`. */
  function Or(v: Json, key: string, fallback: Json): (r: Json)
    ensures Truthy(r) || r == fallback
    ensures TruthyAt(v, key) ==> r == v.fields[key]
    ensures !TruthyAt(v, key) ==> r == fallback
  {
    if TruthyAt(v, key) then v.fields[key] else fallback
  }

  /** `String(v)`, which is what `textContent = v` and a template literal
      produce. Arrays print their elements joined by commas, with null
      elements printed as empty strings. This holds for values in which no
      object has its own `toString` key; converting such a value throws a
      TypeError, which is not modelled. */
  function Display(v: Json): (r: string)
    ensures v.JStr? ==> r == v.s
    ensures v.JNum? ==> Text.ParseInt(r) == Some(v.n)
    ensures v.JObj? ==> r == "[object Object]"
    decreases v
  {
    match v
    case JNull => "null"
    case JBool(b) => if b then "true" else "false"
    case JNum(n) => Text.ParseIntOfIntToString(n); Text.IntToString(n)
    case JStr(s) => s
    case JArr(items) => JoinDisplay(items)
    case JObj(_) => "[object Object]"
  }

  function JoinDisplay(items: seq<Json>): string
    decreases items
  {
    if items == [] then ""
    else
      var last := items[|items| - 1];
      var shown := if last.JNull? then "" else Display(last);
      if |items| == 1 then shown else JoinDisplay(items[..|items| - 1]) + "," + shown
  }
}

=== FILE: message_order.dfy ===
/** The defensive re-sort the widget applies to every session's messages
    when it loads the history: `messages.sort((a, b) => (a.timestamp || 0) -
    (b.timestamp || 0))`. JavaScript's `Array.prototype.sort` is stable, so
    the result is fully determined: ascending by timestamp, and messages with
    equal timestamps keep their stored order. */
module MessageOrder {
  import opened ChatTypes

  /** Timestamps never decrease along `ms`. */
  ghost predicate Sorted(ms: seq<Message>) {
    forall i, j :: 0 <= i < j < |ms| ==> ms[i].timestamp <= ms[j].timestamp
  }

  /** The messages of `ms` stamped `t`, in their order in `ms`; a sort is
      stable when it keeps every such subsequence as it was. */
  function StampedAt(ms: seq<Message>, t: int): seq<Message> {
    if ms == [] then []
    else (if ms[0].timestamp == t then [ms[0]] else []) + StampedAt(ms[1..], t)
  }

  /** Putting a message in front of a sorted sequence whose first
      timestamp is not earlier keeps it sorted. */
  lemma ConsSorted(x: Message, ms: seq<Message>)
    requires Sorted(ms) && (ms == [] || x.timestamp <= ms[0].timestamp)
    ensures Sorted([x] + ms)
  {
    forall i, j | 0 <= i < j < |ms| + 1
      ensures ([x] + ms)[i].timestamp <= ([x] + ms)[j].timestamp
    {
      if i > 0 {
        assert ([x] + ms)[i] == ms[i - 1] && ([x] + ms)[j] == ms[j - 1];
      } else {
        assert ([x] + ms)[j] == ms[j - 1];
      }
    }
  }

  /** Places `m` in sorted `ms` before the first message with a timestamp at
      least its own. */
  function Insert(m: Message, ms: seq<Message>): (r: seq<Message>)
    requires Sorted(ms)
    ensures Sorted(r)
    ensures multiset(r) == multiset(ms) + multiset{m}
    ensures r != [] && (r[0] == m || (ms != [] && r[0] == ms[0]))
  {
    if ms == [] || m.timestamp <= ms[0].timestamp then
      ConsSorted(m, ms);
      [m] + ms
    else
      var rest := Insert(m, ms[1..]);
      assert ms == [ms[0]] + ms[1..];
      assert |ms| > 1 ==> ms[0].timestamp <= ms[1].timestamp;
      ConsSorted(ms[0], rest);
      [ms[0]] + rest
  }

  /** The stable sort by timestamp of script.js:296: sorted and a
      permutation of its input. */
  function SortByTimestamp(ms: seq<Message>): (r: seq<Message>)
    ensures Sorted(r)
    ensures multiset(r) == multiset(ms)
  {
    if ms == [] then []
    else
      assert ms == [ms[0]] + ms[1..];
      Insert(ms[0], SortByTimestamp(ms[1..]))
  }

  lemma StampedAtCons(x: Message, xs: seq<Message>, t: int)
    ensures StampedAt([x] + xs, t) == (if x.timestamp == t then [x] else []) + StampedAt(xs, t)
  {
    assert ([x] + xs)[1..] == xs;
  }

  lemma {:induction false} InsertStable(m: Message, ms: seq<Message>, t: int)
    requires Sorted(ms)
    ensures StampedAt(Insert(m, ms), t) == StampedAt([m] + ms, t)
  {
    if ms != [] && m.timestamp > ms[0].timestamp {
      var rest := Insert(m, ms[1..]);
      assert Insert(m, ms) == [ms[0]] + rest;
      StampedAtCons(ms[0], rest, t);
      InsertStable(m, ms[1..], t);
      StampedAtCons(m, ms[1..], t);
      assert ms == [ms[0]] + ms[1..];
      StampedAtCons(ms[0], ms[1..], t);
      StampedAtCons(m, ms, t);
    }
  }

  /** The sort is stable: for every timestamp, the messages carrying it
      appear in the same relative order before and after sorting. */
  lemma {:induction false} SortIsStable(ms: seq<Message>, t: int)
    ensures StampedAt(SortByTimestamp(ms), t) == StampedAt(ms, t)
  {
    if ms != [] {
      var sortedRest := SortByTimestamp(ms[1..]);
      InsertStable(ms[0], sortedRest, t);
      assert ([ms[0]] + sortedRest)[1..] == sortedRest;
      SortIsStable(ms[1..], t);
    }
  }

  /** Messages that were appended in clock order come back from the load
      step exactly as they were saved. */
  lemma {:induction false} SortKeepsSortedInput(ms: seq<Message>)
    requires Sorted(ms)
    ensures SortByTimestamp(ms) == ms
  {
    if ms != [] {
      SortKeepsSortedInput(ms[1..]);
      assert ms == [ms[0]] + ms[1..];
    }
  }
}

=== FILE: normalizer.dfy ===
/** The response normaliser of the send cycle (script.js:117-140): it maps
    whatever body the endpoint returned onto one `{type, content, config}`
    shape, decides whether that shape is an acceptable reply, and builds the
    bot message that is appended to the conversation. */
module Normalizer {
  import opened Wrappers
  import opened Json
  import opened ChatTypes

  const UnexpectedFormat: string := "Sorry, I received an unexpected response format."

  /** `v.type || v.content || v.config`. */
  predicate HasCanonicalKey(v: Json) {
    TruthyAt(v, "type") || TruthyAt(v, "content") || TruthyAt(v, "config")
  }

  /** `typeof v === 'object'`, which holds of null, arrays and objects. */
  predicate IsObjectType(v: Json) {
    v.JNull? || v.JArr? || v.JObj?
  }

  /** `{ type: 'text', content: s }`. */
  function TextReply(s: string): Json {
    JObj(map["type" := TextKind, "content" := JStr(s)])
  }

  /** The ordered fallback of script.js:117-130; None is `responseData ===
      null`. Whatever it returns is an object. */
  function Normalize(data: Json): (r: Option<Json>)
    ensures r.Some? ==> r.value.JObj?
  {
    var output := Get(data, "output");
    if Truthy(data) && HasCanonicalKey(data) then Some(data)
    else if Truthy(data) && output.Some? && Truthy(output.value)
            && IsObjectType(output.value) && HasCanonicalKey(output.value) then Some(output.value)
    else if Truthy(data) && output.Some? && Truthy(output.value) && output.value.JStr? then
      Some(TextReply(output.value.s))
    else if data.JStr? then Some(TextReply(data.s))
    else None
  }

  /** `responseData && (responseData.content || responseData.config)`. */
  predicate Accepted(data: Json)
    ensures Accepted(data) ==> Truthy(data)
    ensures data.JStr? ==> (Accepted(data) <==> data.s != "")
    ensures TruthyAt(data, "content") || TruthyAt(data, "config") ==> Accepted(data)
  {
    var r := Normalize(data);
    r.Some? && (TruthyAt(r.value, "content") || TruthyAt(r.value, "config"))
  }

  /** The bot message of script.js:134-140 built from an accepted shape:
      `type` defaults to 'text', `content` and `config` to null, and at
      least one of the two is present. */
  function BotMessage(shape: Json, now: int): (m: Message)
    requires TruthyAt(shape, "content") || TruthyAt(shape, "config")
    ensures m.sender == Bot && m.timestamp == now
    ensures Truthy(m.kind) && (Truthy(m.content) || Truthy(m.config))
    ensures m.content == (if TruthyAt(shape, "content") then shape.fields["content"] else JNull)
    ensures m.config == (if TruthyAt(shape, "config") then shape.fields["config"] else JNull)
    ensures m.kind == (if TruthyAt(shape, "type") then shape.fields["type"] else TextKind)
  {
    Message(Bot, Or(shape, "content", JNull), Or(shape, "type", TextKind), Or(shape, "config", JNull), now)
  }

  /** The message appended when the endpoint answered with `data`: the
      normalised reply when it is acceptable, otherwise the fixed
      unexpected-format notice. Either way it has something to show. */
  function ReplyToData(data: Json, now: int): (m: Message)
    ensures m.sender == Bot && m.timestamp == now
    ensures Truthy(m.content) || Truthy(m.config)
    ensures Accepted(data) ==> m == BotMessage(Normalize(data).value, now)
    ensures !Accepted(data) ==> m == TextMessage(Bot, UnexpectedFormat, now)
  {
    if Accepted(data) then BotMessage(Normalize(data).value, now)
    else TextMessage(Bot, UnexpectedFormat, now)
  }

  /** The five branches of the fallback, first match wins. */
  lemma NormalizeOrder(data: Json)
    ensures HasCanonicalKey(data) ==> Normalize(data) == Some(data)
    ensures !HasCanonicalKey(data) && data.JObj? && "output" in data.fields
            && data.fields["output"].JObj? && HasCanonicalKey(data.fields["output"])
            ==> Normalize(data) == Some(data.fields["output"])
    ensures !HasCanonicalKey(data) && data.JObj? && "output" in data.fields
            && data.fields["output"].JStr? && data.fields["output"].s != ""
            ==> Normalize(data) == Some(TextReply(data.fields["output"].s))
    ensures data.JStr? ==> Normalize(data) == Some(TextReply(data.s))
    ensures Normalize(data).None? <==>
            !data.JStr? && !HasCanonicalKey(data)
            && !(data.JObj? && "output" in data.fields && data.fields["output"].JObj?
                 && HasCanonicalKey(data.fields["output"]))
            && !(data.JObj? && "output" in data.fields && data.fields["output"].JStr?
                 && data.fields["output"].s != "")
  {
  }

  /** Exactly four kinds of body are accepted: an object carrying content or
      config itself; an object without type, content and config whose
      `output` object carries content or config; such an object whose
      `output` is a non-empty string; and a non-empty string. */
  lemma AcceptedCases(data: Json)
    ensures Accepted(data) <==>
            || (HasCanonicalKey(data) && (TruthyAt(data, "content") || TruthyAt(data, "config")))
            || (!HasCanonicalKey(data) && data.JObj? && "output" in data.fields
                && data.fields["output"].JObj? && HasCanonicalKey(data.fields["output"])
                && (TruthyAt(data.fields["output"], "content") || TruthyAt(data.fields["output"], "config")))
            || (!HasCanonicalKey(data) && data.JObj? && "output" in data.fields
                && data.fields["output"].JStr? && data.fields["output"].s != "")
            || (data.JStr? && data.s != "")
  {
  }

  /** First match wins: a body whose own `type` is set but which has neither
      content nor config is rejected, even when its `output` holds a usable
      reply. */
  lemma FirstMatchWins(data: Json)
    requires TruthyAt(data, "type") && !TruthyAt(data, "content") && !TruthyAt(data, "config")
    ensures !Accepted(data)
  {
  }

  /** Normalising is idempotent: every shape it produces is already in the
      canonical form it looks for first. */
  lemma NormalizeIdempotent(data: Json)
    requires Normalize(data).Some?
    ensures Normalize(Normalize(data).value) == Normalize(data)
  {
  }

  /** `{type: 'chart', config}` becomes a chart message with null content. */
  lemma ChartReply(config: map<string, Json>, now: int)
    ensures var data := JObj(map["type" := JStr("chart"), "config" := JObj(config)]);
            ReplyToData(data, now) == Message(Bot, JNull, JStr("chart"), JObj(config), now)
  {
  }

  /** `{output: s}` with a non-empty string becomes a text message. */
  lemma OutputStringReply(s: string, now: int)
    requires s != ""
    ensures ReplyToData(JObj(map["output" := JStr(s)]), now) == TextMessage(Bot, s, now)
  {
  }

  /** A plain non-empty string body becomes a text message. */
  lemma PlainStringReply(s: string, now: int)
    requires s != ""
    ensures ReplyToData(JStr(s), now) == TextMessage(Bot, s, now)
  {
  }

  /** The empty object is not a reply: it yields the unexpected-format
      notice. */
  lemma EmptyObjectRejected(now: int)
    ensures Normalize(JObj(map[])).None?
    ensures ReplyToData(JObj(map[]), now) == TextMessage(Bot, UnexpectedFormat, now)
  {
  }
}

=== FILE: render.dfy ===
/** The type dispatch of `addMessageToUI` (script.js:177-241): what a message
    bubble shows. Building the DOM, drawing the chart and scrolling are left
    to the browser; this module only decides which of the four bubbles a
    message becomes and the text it carries. */
module Render {
  import opened Wrappers
  import opened Json
  import opened ChatTypes
  import opened Normalizer

  datatype View =
    | TextView(text: string)                           // a plain text bubble
    | Placeholder(text: string)                        // a text message with nothing to show
    | ChartView(caption: Option<string>, config: Json) // a chart, optionally with text above it
    | Unsupported(text: string)                        // any other type, or a chart without config

  const EmptyBotText: string := "[Empty message received]"
  const EmptyUserText: string := "[Empty user message]"

  function UnsupportedText(kind: Json): string {
    "[Unsupported message type: " + Display(kind) + "]"
  }

  /** `addMessageToUI(content, sender, type, chartConfig)`. */
  function RenderMessage(content: Json, sender: Sender, kind: Json, config: Json): (v: View)
    ensures v.Placeholder? <==> kind == TextKind && !Truthy(content)
    ensures v.ChartView? <==> kind == JStr("chart") && Truthy(config)
    ensures v.ChartView? ==> v.config == config
    ensures Truthy(content) ==> v in {TextView(Display(content)), ChartView(Some(Display(content)), config), Unsupported(Display(content))}
    ensures !Truthy(content) ==> v in {Placeholder(EmptyBotText), Placeholder(EmptyUserText), ChartView(None, config), Unsupported(UnsupportedText(kind))}
    ensures kind == TextKind && Truthy(content) ==> v == TextView(Display(content))
    ensures v.Placeholder? ==> v.text == (if sender == Bot then EmptyBotText else EmptyUserText)
    ensures v.Unsupported? <==> kind != TextKind && !(kind == JStr("chart") && Truthy(config))
  {
    if kind == TextKind then
      if Truthy(content) then TextView(Display(content))
      else Placeholder(if sender == Bot then EmptyBotText else EmptyUserText)
    else if kind == JStr("chart") && Truthy(config) then
      ChartView(if Truthy(content) then Some(Display(content)) else None, config)
    else
      Unsupported(if Truthy(content) then Display(content) else UnsupportedText(kind))
  }

  /** The bubble of a stored message, as `loadChat` replays it. */
  function RenderOf(m: Message): View {
    RenderMessage(m.content, m.sender, m.kind, m.config)
  }

  /** `loadChat` replays a session as one bubble per message, in order. */
  function RenderSession(ms: seq<Message>): (vs: seq<View>)
    ensures |vs| == |ms|
    ensures forall i :: 0 <= i < |ms| ==> vs[i] == RenderOf(ms[i])
  {
    if ms == [] then [] else [RenderOf(ms[0])] + RenderSession(ms[1..])
  }

  /** Text messages with non-empty text (user input, the greeting, the error
      notices) show their text verbatim. */
  lemma TextMessageShowsText(sender: Sender, s: string, t: int)
    requires s != ""
    ensures RenderOf(TextMessage(sender, s, t)) == TextView(s)
  {
  }

  /** A reply carrying a chart config but no `type` defaults to 'text' and,
      having no content, shows the empty-message placeholder instead of the
      chart. */
  lemma UntypedChartShowsPlaceholder(config: Json, t: int)
    requires Truthy(config)
    ensures RenderOf(ReplyToData(JObj(map["config" := config]), t)) == Placeholder(EmptyBotText)
  {
  }
}

=== FILE: sessions.dfy ===
/** Session values and the pure effects the history operations have on them:
    the session `startNewChat` creates, the append of `saveMessageToHistory`,
    the re-sort `loadChatHistory` applies, and the invariant that keeps a
    session's timestamps in order. */
module Sessions {
  import opened Wrappers
  import opened Json
  import opened Text
  import opened ChatTypes
  import opened MessageOrder

  /** What `localStorage.getItem` and `JSON.parse` gave: nothing stored (or
      the empty string), text that did not parse into a history object, or
      the parsed history map. */
  datatype Snapshot = Missing | Unparsable | Parsed(sessions: map<string, Session>)

  /** The session invariant: creation precedes the last update, messages are
      in timestamp order, and none is later than the last update. */
  ghost predicate WellStamped(s: Session) {
    && s.createdAt <= s.lastUpdated
    && Sorted(s.messages)
    && forall i :: 0 <= i < |s.messages| ==> s.messages[i].timestamp <= s.lastUpdated
  }

  /** The session `startNewChat` stores under `id` at clock reading `now`
      (script.js:369-387): default title, one bot greeting stamped one
      millisecond later, and a last update equal to the greeting's stamp. */
  function NewSession(id: string, now: int): (s: Session)
    ensures s.id == id && s.title == DefaultTitle(id) && s.createdAt == now
    ensures |s.messages| == 1 && s.messages[0].sender == Bot && s.messages[0].content == JStr(Greeting)
    ensures s.messages[0] == TextMessage(Bot, Greeting, now + 1) && s.lastUpdated == now + 1
    ensures s.lastUpdated == s.messages[0].timestamp > s.createdAt
    ensures WellStamped(s)
  {
    Session(id, DefaultTitle(id), [TextMessage(Bot, Greeting, now + 1)], now, now + 1)
  }

  /** `if (!messageData.timestamp) messageData.timestamp = Date.now()`. */
  function Stamped(m: Message, now: int): (r: Message)
    ensures r == m.(timestamp := r.timestamp)
    ensures m.timestamp != 0 ==> r == m
    ensures m.timestamp == 0 ==> r.timestamp == now
    ensures r.timestamp != 0 || now == 0
  {
    if m.timestamp == 0 then m.(timestamp := now) else m
  }

  /** The session after `saveMessageToHistory` appended `m` to it: one more
      message at the end, the earlier ones untouched, and the last update
      equal to the new message's timestamp. */
  function Appended(s: Session, m: Message, now: int): (r: Session)
    ensures r.id == s.id && r.title == s.title && r.createdAt == s.createdAt
    ensures |r.messages| == |s.messages| + 1 && r.messages[..|s.messages|] == s.messages
    ensures r.messages[|s.messages|] == Stamped(m, now)
    ensures r.lastUpdated == r.messages[|s.messages|].timestamp
  {
    var stamped := Stamped(m, now);
    s.(messages := s.messages + [stamped], lastUpdated := stamped.timestamp)
  }

  /** The history map after `saveMessageToHistory(id, m)`
      (script.js:329-343): the session under `id` gets `m` appended; an
      unknown id leaves the map as it was. */
  function WithMessage(h: map<string, Session>, id: string, m: Message, now: int): (r: map<string, Session>)
    ensures r.Keys == h.Keys
    ensures forall k | k in h && k != id :: r[k] == h[k]
    ensures id in h ==> r[id] == Appended(h[id], m, now)
    ensures id !in h ==> r == h
  {
    if id in h then h[id := Appended(h[id], m, now)] else h
  }

  /** Appending a message stamped no earlier than the last update keeps the
      session invariant. */
  lemma AppendKeepsWellStamped(s: Session, m: Message, now: int)
    requires WellStamped(s)
    requires Stamped(m, now).timestamp >= s.lastUpdated
    ensures WellStamped(Appended(s, m, now))
  {
    var r := Appended(s, m, now);
    var n := |s.messages|;
    forall i, j | 0 <= i < j < |r.messages|
      ensures r.messages[i].timestamp <= r.messages[j].timestamp
    {
      if j < n {
        assert r.messages[i] == s.messages[i] && r.messages[j] == s.messages[j];
      } else {
        assert r.messages[i] == s.messages[i];
      }
    }
  }

  /** The session with its messages re-sorted, as `loadChatHistory` leaves
      it (script.js:294-301). */
  function Resorted(s: Session): (r: Session)
    ensures r == s.(messages := r.messages)
    ensures Sorted(r.messages) && multiset(r.messages) == multiset(s.messages)
  {
    s.(messages := SortByTimestamp(s.messages))
  }

  /** The history map `loadChatHistory` leaves: the parsed map with every
      session re-sorted; empty when nothing was stored or it did not parse. */
  function LoadedSessions(snap: Snapshot): (h: map<string, Session>)
    ensures snap.Parsed? ==> h.Keys == snap.sessions.Keys
    ensures !snap.Parsed? ==> h == map[]
    ensures forall k | k in h :: h[k] == Resorted(snap.sessions[k])
  {
    match snap
    case Parsed(sessions) => map k | k in sessions :: Resorted(sessions[k])
    case _ => map[]
  }

  /** `key` is not numeric, or its numeric value is below `n`: no id the
      counter hands out from `n` on can be `key`. */
  predicate IdBelow(key: string, n: int) {
    var v := ParseInt(key);
    v.None? || v.value < n
  }

  /** `next` is one more than what the reduction of script.js:304-307
      yields on `keys`: the largest `parseInt` value among them, or 0 when
      none is positive. */
  ghost predicate IsNextId(keys: set<string>, next: int) {
    && next >= 1
    && (forall k | k in keys :: IdBelow(k, next))
    && (next == 1 || exists k {:trigger ParseInt(k)} | k in keys :: ParseInt(k) == Some(next - 1))
  }

  /** When every numeric key is below the counter, no id the counter hands
      out from now on is in use. */
  lemma FreshId(h: map<string, Session>, n: nat)
    requires forall k | k in h :: IdBelow(k, n)
    ensures forall m: nat | m >= n :: NatToString(m) !in h
  {
    forall m: nat | m >= n
      ensures NatToString(m) !in h
    {
      ParseIntOfNatToString(m);
    }
  }
}

=== FILE: text.dfy ===
/** The string primitives of JavaScript the widget relies on:
    `String.prototype.trim`, `Number.prototype.toString` on the id counter,
    and `parseInt(key, 10)` on stored session ids. A `char` here stands for
    one UTF-16 code unit, the unit JavaScript strings are counted in. */
module Text {
  import opened Wrappers

  /** The characters `trim` and `parseInt` skip: JavaScript's WhiteSpace
      (tab, vertical tab, form feed, the space separators of category Zs and
      the byte order mark) and LineTerminator. */
  predicate IsSpace(c: char) {
    || c == '\t' || c == '\n' || c == '\U{000B}' || c == '\U{000C}' || c == '\r'
    || c == ' ' || c == '\U{00A0}' || c == '\U{1680}'
    || ('\U{2000}' <= c <= '\U{200A}')
    || c == '\U{2028}' || c == '\U{2029}' || c == '\U{202F}' || c == '\U{205F}'
    || c == '\U{3000}' || c == '\U{FEFF}'
  }

  predicate AllSpaces(s: string) {
    forall i :: 0 <= i < |s| ==> IsSpace(s[i])
  }

  /** The number of whitespace characters at the start of `s`. */
  function LeadingSpaces(s: string): (k: nat)
    ensures k <= |s|
    ensures forall i :: 0 <= i < k ==> IsSpace(s[i])
    ensures k == |s| || !IsSpace(s[k])
  {
    if s != [] && IsSpace(s[0]) then 1 + LeadingSpaces(s[1..]) else 0
  }

  /** The number of whitespace characters at the end of `s`. */
  function TrailingSpaces(s: string): (k: nat)
    ensures k <= |s|
    ensures forall i :: |s| - k <= i < |s| ==> IsSpace(s[i])
    ensures k == |s| || !IsSpace(s[|s| - 1 - k])
  {
    if s != [] && IsSpace(s[|s| - 1]) then 1 + TrailingSpaces(s[..|s| - 1]) else 0
  }

  /** `s.trim()`: the slice of `s` that starts after its leading whitespace,
      is followed by whitespace only, and neither starts nor ends with
      whitespace. */
  function Trim(s: string): (r: string)
    ensures |r| <= |s|
    ensures r == [] || (!IsSpace(r[0]) && !IsSpace(r[|r| - 1]))
    ensures var i := LeadingSpaces(s);
            i + |r| <= |s| && r == s[i..i + |r|] && AllSpaces(s[i + |r|..])
  {
    var i := LeadingSpaces(s);
    var k := TrailingSpaces(s[i..]);
    TrailingInPlace(s, i);
    TrimBounds(s, i, k);
    s[i..|s| - k]
  }

  /** The trailing whitespace of `s[i..]`, read in `s` itself. */
  lemma TrailingInPlace(s: string, i: nat)
    requires i <= |s|
    ensures var k := TrailingSpaces(s[i..]);
            && k <= |s| - i
            && (forall t :: |s| - k <= t < |s| ==> IsSpace(s[t]))
            && (k == |s| - i || !IsSpace(s[|s| - 1 - k]))
  {
    var rest := s[i..];
    var k := TrailingSpaces(rest);
    forall t | |s| - k <= t < |s| ensures IsSpace(s[t]) {
      assert s[t] == rest[t - i];
    }
    if k < |rest| {
      assert s[|s| - 1 - k] == rest[|rest| - 1 - k];
    }
  }

  /** Cutting `i` leading and `k` trailing whitespace characters, where the
      next character in from each end is not whitespace, leaves a slice that
      starts and ends with a non-space, followed by whitespace only. */
  lemma TrimBounds(s: string, i: nat, k: nat)
    requires i <= |s| && k <= |s| - i
    requires i == |s| || !IsSpace(s[i])
    requires forall t :: |s| - k <= t < |s| ==> IsSpace(s[t])
    requires k == |s| - i || !IsSpace(s[|s| - 1 - k])
    ensures var r := s[i..|s| - k];
            && (r == [] || (!IsSpace(r[0]) && !IsSpace(r[|r| - 1])))
            && i + |r| == |s| - k && r == s[i..i + |r|] && AllSpaces(s[i + |r|..])
  {
    var j := |s| - k;
    forall t | 0 <= t < k ensures IsSpace(s[j..][t]) {
      assert s[j..][t] == s[j + t];
    }
    if i < j {
      assert s[i..j][0] == s[i];
      assert s[i..j][j - i - 1] == s[j - 1];
    }
  }

  /** Trimming twice is trimming once: `handleSendMessage` trims the input and
      `updateChatTitle` trims it again, to the same effect. */
  lemma TrimIdempotent(s: string)
    ensures Trim(Trim(s)) == Trim(s)
  {
    var r := Trim(s);
    assert LeadingSpaces(r) == 0;
    assert r[0..] == r;
    assert TrailingSpaces(r) == 0;
  }

  predicate IsDigit(c: char) {
    '0' <= c <= '9'
  }

  predicate AllDigits(s: string) {
    forall i :: 0 <= i < |s| ==> IsDigit(s[i])
  }

  function DigitChar(d: nat): (c: char)
    requires d < 10
    ensures IsDigit(c)
  {
    ('0' as int + d) as char
  }

  /** `n.toString()` for a non-negative integer: a non-empty run of decimal
      digits with no leading zero. */
  function NatToString(n: nat): (s: string)
    ensures |s| >= 1 && AllDigits(s)
    ensures s[0] == '0' ==> n == 0
  {
    if n < 10 then [DigitChar(n)] else NatToString(n / 10) + [DigitChar(n % 10)]
  }

  /** `i.toString()` for any integer. */
  function IntToString(i: int): string {
    if i < 0 then "-" + NatToString(-i) else NatToString(i)
  }

  /** The digits at the start of `u` read onto `acc`, most significant
      first: each one multiplies what was read so far by ten and adds its
      own value; the first non-digit ends the run. */
  function ReadDigits(u: string, acc: nat): nat
    decreases |u|
  {
    if u != [] && IsDigit(u[0]) then ReadDigits(u[1..], acc * 10 + (u[0] as int - '0' as int))
    else acc
  }

  /** The value of the run of digits `u` starts with; NaN (None) when it
      does not start with a digit. */
  function ParseDigits(u: string): Option<nat> {
    if u != [] && IsDigit(u[0]) then Some(ReadDigits(u, 0)) else None
  }

  /** `parseInt(s, 10)`: skip leading whitespace, read an optional sign, then
      the longest run of decimal digits; no digit at all gives NaN (None).
      Anything after the digits is ignored. */
  function ParseInt(s: string): (r: Option<int>)
    ensures s == [] ==> r == None
    ensures s != [] && IsDigit(s[0]) ==> r == Some(ReadDigits(s, 0))
    ensures s != [] && !IsSpace(s[0]) && !IsDigit(s[0]) && s[0] != '-' && s[0] != '+' ==> r == None
    decreases |s|
  {
    if s != [] && IsSpace(s[0]) then ParseInt(s[1..])
    else
      var negative := s != [] && s[0] == '-';
      var digits := ParseDigits(if s != [] && (s[0] == '-' || s[0] == '+') then s[1..] else s);
      match digits
      case None => None
      case Some(v) =>
        var value: int := if negative then -(v as int) else v;
        Some(value)
  }

  /** Reading one more digit at the end of a run of digits shifts what was
      read by one decimal place. */
  lemma {:induction false} ReadDigitsSnoc(u: string, d: char, acc: nat)
    requires AllDigits(u) && IsDigit(d)
    ensures ReadDigits(u + [d], acc) == ReadDigits(u, acc) * 10 + (d as int - '0' as int)
    decreases |u|
  {
    if u != [] {
      assert (u + [d])[1..] == u[1..] + [d];
      ReadDigitsSnoc(u[1..], d, acc * 10 + (u[0] as int - '0' as int));
    }
  }

  lemma {:induction false} ReadNatToString(n: nat)
    ensures ReadDigits(NatToString(n), 0) == n
  {
    if n >= 10 {
      ReadDigitsSnoc(NatToString(n / 10), DigitChar(n % 10), 0);
      ReadNatToString(n / 10);
    }
  }

  /** The digit run ends where the digits do: what follows a run of digits,
      when it does not start with a digit, is not read. */
  lemma {:induction false} ReadDigitsStops(u: string, rest: string, acc: nat)
    requires AllDigits(u) && (rest == [] || !IsDigit(rest[0]))
    ensures ReadDigits(u + rest, acc) == ReadDigits(u, acc)
    decreases |u|
  {
    if u == [] {
      assert u + rest == rest;
    } else {
      assert (u + rest)[1..] == u[1..] + rest;
      ReadDigitsStops(u[1..], rest, acc * 10 + (u[0] as int - '0' as int));
    }
  }

  /** `parseInt` of a number's decimal form followed by anything that does
      not start with a digit reads the number back. */
  lemma ParseIntOfNatToStringThen(n: nat, rest: string)
    requires rest == [] || !IsDigit(rest[0])
    ensures ParseInt(NatToString(n) + rest) == Some(n)
  {
    var s := NatToString(n);
    assert (s + rest)[0] == s[0];
    assert IsDigit(s[0]) && !IsSpace(s[0]);
    ReadDigitsStops(s, rest, 0);
    ReadNatToString(n);
  }

  /** Reading back a generated id gives the number it was made from, which
      is what makes the counter-based ids collision-free. */
  lemma ParseIntOfNatToString(n: nat)
    ensures ParseInt(NatToString(n)) == Some(n)
  {
    ParseIntOfNatToStringThen(n, []);
    assert NatToString(n) + [] == NatToString(n);
  }

  /** `parseInt(String(i), 10) == i` for every integer, negative ones
      included. */
  lemma ParseIntOfIntToString(i: int)
    ensures ParseInt(IntToString(i)) == Some(i)
  {
    if i < 0 {
      var s := IntToString(i);
      assert s[0] == '-' && !IsSpace(s[0]);
      assert s[1..] == NatToString(-i);
      ParseIntOfNatToString(-i);
    } else {
      ParseIntOfNatToString(i);
    }
  }
}

=== FILE: titles.dfy ===
/** Session titles: the title derived from the first user message
    (`updateChatTitle`, script.js:350-360) and the eligibility test that
    decides when it is derived (script.js:149). */
module Titles {
  import opened Text
  import opened ChatTypes

  const MaxTitleLength: nat := 35
  const Ellipsis: string := "..."

  /** The title derived from `text`: the trimmed text cut to 35 characters,
      with an ellipsis exactly when something was cut; the default title when
      the trimmed text is empty. */
  function DeriveTitle(id: string, text: string): (t: string)
    ensures Trim(text) == [] ==> t == DefaultTitle(id)
    ensures Trim(text) != [] && |Trim(text)| <= MaxTitleLength ==> t == Trim(text)
    ensures |Trim(text)| > MaxTitleLength ==>
              |t| == MaxTitleLength + |Ellipsis| && t[..MaxTitleLength] == Trim(text)[..MaxTitleLength]
              && t[MaxTitleLength..] == Ellipsis
    ensures Trim(text) != [] ==> |t| <= MaxTitleLength + |Ellipsis|
  {
    var trimmed := Trim(text);
    var potential := trimmed[..if |trimmed| < MaxTitleLength then |trimmed| else MaxTitleLength];
    if |potential| > 0 then potential + (if |trimmed| > MaxTitleLength then Ellipsis else "")
    else DefaultTitle(id)
  }

  /** The send cycle passes already-trimmed text; trimming it again inside
      `updateChatTitle` changes nothing. */
  lemma DeriveTitleOfTrimmed(id: string, text: string)
    ensures DeriveTitle(id, Trim(text)) == DeriveTitle(id, text)
  {
    TrimIdempotent(text);
  }

  /** The number of user messages in `ms`. */
  function UserCount(ms: seq<Message>): nat {
    if ms == [] then 0 else (if ms[0].sender == User then 1 else 0) + UserCount(ms[1..])
  }

  /** The gate of script.js:149 as written: at most two messages, and the
      title is still the default. */
  predicate EligibleAsWritten(s: Session, id: string) {
    |s.messages| <= 2 && s.title == DefaultTitle(id)
  }

  /** The gate the comment at script.js:146-148 describes ("the first proper
      exchange"): the session holds at most one user message, and the title
      is still the default. Unlike the gate as written, it does not count
      the greeting a new chat is seeded with. */
  predicate Eligible(s: Session, id: string) {
    UserCount(s.messages) <= 1 && s.title == DefaultTitle(id)
  }

  /** Which retitling gate the send cycle applies: the one script.js:149
      has, or the corrected one. */
  datatype Gate = AsWritten | Corrected

  predicate Opens(g: Gate, s: Session, id: string) {
    match g
    case AsWritten => EligibleAsWritten(s, id)
    case Corrected => Eligible(s, id)
  }
}

=== FILE: wrappers.dfy ===
/** The optional-value wrapper used throughout the model, standing in for
    JavaScript's `undefined`/`null` where the widget tests for absence. */
module Wrappers {

  datatype Option<+T> = None | Some(value: T)
}
